=== FILE: README.md ===
# locker — a Dafny model of the process-wide lock registry

`locker.hpp` makes Linux `flock` usable as a reentrant, per-process file lock. A process-wide
`std::map` from file identity (inode, device) to `{descriptor, count, pid}` records which
files the process holds. `lock` opens the path and looks up its identity. It then either
raises the count of an entry the process already holds, or takes the `flock`. In that case it
re-stats the path to make sure that the path still names the file it locked. If not, it starts
over. `unlock` lowers the count. When the count reaches zero, `release` fsyncs the file,
unlinks it if it is an empty lockfile, and closes it. `lock_guard_t` pairs one `lock` with one
`unlock`.

The model is a functional state machine. The registry is an immutable
`map<Key, Entry>`, and `lock`, `unlock`, `release` and the registry destructor are pure step
functions. Each system call becomes an input that reports its outcome:

- `AcquireProtocol.Attempt` holds what one loop iteration of `lock` sees from `open`,
  `fstat`, `flock` and `stat`.
- `ReleaseProtocol.Probe` holds what `release` sees from `fstat`, `readlink`, `stat`,
  `fsync`, `lseek`, `unlink` and `close`.
- `getpid()` is a parameter.

Modules:

- `LockKey` (key.dfy): `key_t`, its `==` and `<`, and the `Stat` fields the locker reads.
- `LockRegistry` (registry.dfy): `value_t`, the registry map and `emplace`.
- `AcquireProtocol` (acquire.dfy): one iteration of `lock` (`LockStep`) and the whole retry
  loop (`LockRun`), driven by a finite sequence of attempts.
- `ReleaseProtocol` (release.dfy): `release<should_keep_empty>`, `unlock<should_keep_empty>`
  and `~locker`.
- `Guard` (guard.dfy): `lock_guard_t`, plus repeated locks and unlocks of one file.
- `ReadHelpers` (read.dfy): newline stripping in `read<true>` and the element count of
  `read<T>`.

Behaviour of the code worth knowing:

- A registered identity whose entry belongs to another pid, such as one inherited across
  `fork`, is not treated as reentrant. The entry is erased, and the call then takes a fresh
  lock. The erased entry's descriptor is not closed (locker.hpp:173). The model reports that
  descriptor in `Step.dropped`.
- On an identity mismatch after `flock`, `lock` only closes the descriptor and loops.
- A failed `flock` throws, in the blocking and in the non-blocking variant.
- `unlock` of an identity that is not registered does nothing.
- Before it unlinks, `release` re-stats the path recovered through `/proc/self/fd` and throws
  if that path names a different file. It fsyncs whenever the file is still linked, including
  when empty lockfiles are kept.
- If `release` throws, `unlock` has already decremented the count but does not erase the
  entry, which is left with a count of 0 or less (`ReleaseProtocol.Unlock`). `unlock` is
  called only from `~lock_guard_t` (locker.hpp:319-322). That destructor is implicitly
  `noexcept`, so such an exception calls `std::terminate` and no later operation sees that
  registry. `Guard.LockGuard` reports this as `terminated`.

## Model

| member | source | states |
|---|---|---|
| LockKey.SameIsEquality | locker.hpp:101-104 | `key_t::operator==` holds exactly when inode and device both agree |
| LockKey.LessIrreflexive | locker.hpp:106-109 | no key is less than itself |
| LockKey.LessTransitive | locker.hpp:106-109 | the lexicographic `<` on (inode, device) is transitive |
| LockKey.LessTrichotomy | locker.hpp:106-109 | for any two keys exactly one of `a<b`, `a==b`, `b<a` holds |
| LockKey.EquivalentIsSame | locker.hpp:86-110 | the map's equivalence `!(a<b) && !(b<a)` is exactly `operator==`, so map slots are identities |
| LockRegistry.Emplace | locker.hpp:190 | `emplace` inserts the entry for an absent key and leaves a present key and all other keys unchanged |
| AcquireProtocol.LockStep | locker.hpp:144-200 | one loop iteration: a returned lock is registered for the caller under the fstat identity; only that slot changes; without a lock nothing is added; the caller's entries survive; the new descriptor is closed unless it is stored in a fresh count-1 entry; a foreign-pid entry under the fstat identity is erased and its descriptor reported as dropped, and no other entry is; entries with count ≥ 1 stay so |
| AcquireProtocol.ReentrantLock | locker.hpp:162-170 | a hit on an entry of the caller's pid raises its count by exactly 1, keeps its descriptor, closes the new descriptor, and leaves all other entries unchanged |
| AcquireProtocol.FreshLock | locker.hpp:171-191 | an absent key, or a key held by another pid (erased first), with a successful flock and a matching re-stat (same identity, nlink > 0) gets a count-1 entry of the caller |
| AcquireProtocol.LockRetry | locker.hpp:185-193 | an identity mismatch or nlink = 0 after the flock inserts nothing for the key, closes the descriptor and loops again |
| AcquireProtocol.LockThrows | locker.hpp:146-199 | open, fstat or flock failure throws; nothing is registered for the key, and the descriptor is closed exactly when one was opened |
| AcquireProtocol.LockRun | locker.hpp:139-201 | the retry loop ends at the first iteration that locks or throws: every earlier iteration flocked a file the caller did not hold and failed the re-stat, a throwing last iteration failed open, fstat or flock, and a locking one was a reentrant hit or a confirmed flock; a returned lock is a fresh count-1 entry, or the caller's earlier entry plus 1 when the caller held it; otherwise only foreign-pid entries are lost; every opened descriptor is closed except the one stored by a fresh lock |
| AcquireProtocol.LockRunClosesRetries | locker.hpp:185-193 | each retried iteration closed its own descriptor, in the order of the iterations |
| AcquireProtocol.LockRunClosedCount | locker.hpp:146-199 | every iteration closes its descriptor except a last one that stored it in a fresh entry or whose open failed, and a closed last descriptor is the last attempt's |
| AcquireProtocol.LockRunLosses | locker.hpp:160-174 | an entry is lost only when some iteration fstat'd its identity, and each lost entry's descriptor is reported as dropped |
| ReleaseProtocol.Release | locker.hpp:203-255 | unlink is called if and only if empty files are not kept and the file is linked, its path names the same identity, fsync succeeded and the size is 0; a path naming another file throws before unlink and close; with keep-empty nothing is unlinked; close runs exactly when no earlier step threw; in each mode the release succeeds exactly when every step that mode runs succeeds |
| ReleaseProtocol.Unlock | locker.hpp:257-274 | an absent key is a no-op; otherwise the count drops by 1 and no other key is touched; the entry is erased exactly when the new count is ≤ 0 and the release succeeded; release runs exactly when the new count is ≤ 0 |
| ReleaseProtocol.Teardown | locker.hpp:276-290 | the destructor runs exactly one keep-empty `release` for every entry, so it never unlinks and closes each descriptor whose earlier steps succeed, ignores failures, and always ends with an empty registry |
| Guard.LockGuard | locker.hpp:301-323 | the constructor runs `lock` (`LockRun`) and the guard unlocks exactly once if and only if that lock returned; for a valid registry the destructor runs `release` with the guard's keep-empty mode exactly when the guard took the identity afresh; the process terminates exactly when the destructor's release throws, which for a valid registry means the release of a freshly locked identity failed; the guard touches only the locked key, gives back the count of an identity already held, and leaves a freshly locked identity unregistered once the release succeeds |
| Guard.RelockCounts | locker.hpp:162-170 | n locks of an identity the process holds raise its count by exactly n and change nothing else |
| Guard.FreshThenRelock | locker.hpp:162-191 | a fresh acquire followed by n−1 reentrant locks of the same identity, whatever descriptors the later opens return, leaves one entry of count n for the caller holding the first lock's descriptor, in place of any entry the identity had |
| Guard.UnlockCounts | locker.hpp:264-266 | fewer unlocks than the count only lower the count; no release runs |
| Guard.LastUnlock | locker.hpp:264-272 | the unlock that takes the count from 1 to 0 erases the entry when the release succeeds |
| Guard.NestedBalanced | locker.hpp:162-272 | n nested locks of a file not held, whatever descriptors the later opens return, then n unlocks whose release succeeds, leave the key absent; after n−1 unlocks the key is held with count 1 by the first lock's descriptor |
| Guard.NestedHeld | locker.hpp:162-272 | n nested locks and n unlocks of an identity the process already holds restore the registry exactly |
| ReadHelpers.StripNewlines | locker.hpp:346-356 | the result is a prefix of the input that does not end in `'\n'`; input not ending in `'\n'` is returned unchanged |
| ReadHelpers.StripNewlinesRemovesLineEnds | locker.hpp:348-355 | only `"\n"` and `"\r\n"` line ends are removed, and a `'\r'` directly before a removed `'\n'` goes with it |
| ReadHelpers.StripNewlinesUnique | locker.hpp:348-355 | that description determines the result: no other string satisfies it |
| ReadHelpers.StripNewlinesIdempotent | locker.hpp:348-355 | stripping twice is stripping once |
| ReadHelpers.ElementCount | locker.hpp:371 | a binary read of `bytes` bytes yields `count` elements with `count*sizeof(T) <= bytes < (count+1)*sizeof(T)` |
| ReadHelpers.ElementCountUnique | locker.hpp:371 | those bounds determine the element count |
| ReadHelpers.TrailingByteIgnored | locker.hpp:371 | a file of `3*sizeof(T)+1` bytes reads as 3 elements when `sizeof(T) >= 2` |

## Left out

- System calls (`open`, `umask`, `fstat`, `stat`, `flock`, `fsync`, `lseek`, `unlink`, `close`, `readlink`, `getpid`): their outcomes are inputs. Their kernel effects are not modelled, so neither is cross-process mutual exclusion.
- The registry mutex and threads: the source promises only process safety, so each `lock` and `unlock` is one atomic step.
- Blocking in `flock`: a blocking wait is one attempt whose `flocked` field gives the final outcome. The `is_non_blocking` flag only changes which outcomes can occur.
- An endless retry loop: `LockRun` covers a finite sequence of iterations. When the attempts run out while the loop would retry, it reports `Again`.
- The `erase` failure branch in `unlock` (locker.hpp:268-271): under the mutex the key is still present, so it cannot be taken. It is not modelled.
- AcquireProtocol.LockStep: the count is an unbounded integer. `++num_locks` past `INT_MAX` is undefined behaviour in the source and is not modelled.
- The error messages, including the file name recovered through `readlink`. Only the length check on the `readlink` result is kept.
- Guard.LockGuard: when `terminated` holds, the process has ended in `std::terminate`. The model does not follow it further, and `FinalRegistry` then describes a state no operation observes.
- `Guard.LockGuard` models a guard whose scope runs no other registry operation. Nested scopes are covered by `NestedBalanced` and `NestedHeld`.
- The stream I/O of `read(filename, container)`, `write`, `flush`, `copy`, `move` and `remove` (locker.hpp:380-479): each takes a guard and makes one library call to code that is not part of this model.
- The byte reinterpretation in binary `read<T>` and `flush`: only the element count is modelled.
- test.cpp: a harness that calls helpers this header does not define.

=== FILE: acquire.dfy ===
/** The acquisition protocol `locker::lock<is_non_blocking>`: open, fstat, reentrancy check,
    flock, then re-stat the path and retry when it no longer names the locked file. */
module AcquireProtocol {
  import opened Optional
  import opened LockKey
  import opened LockRegistry

  /** What the system calls of one loop iteration report. The blocking and the non-blocking
      variant differ only in the flock flag, that is, in which `flocked` outcomes can occur. */
  datatype Attempt = Attempt(
    descriptor: int,       // open(path, O_RDWR | O_CREAT, 0666); negative on failure
    status: Option<Key>,   // fstat(descriptor); None on failure
    flocked: bool,         // flock(descriptor, LOCK_EX [| LOCK_NB]) succeeded
    restat: Option<Stat>)  // stat(path) after the flock; None on failure

  /** The `std::runtime_error`s `lock` throws. */
  datatype LockError = OpenFailed | FstatFailed | FlockFailed

  /** How one iteration ends: it returns the lock, loops again, or throws. */
  datatype Status = Locked(key: Key, entry: Entry) | Again | Threw(error: LockError)

  /** One iteration: the registry afterwards, how it ended, the descriptor it closed, and the
      descriptor of a stale entry of another process that it erased without closing. */
  datatype Step = Step(registry: Registry, status: Status, closed: Option<Fd>, dropped: Option<Fd>)

  /** The re-stat shows the path still links to the file that was flocked. */
  predicate StillLinked(restat: Option<Stat>, key: Key) {
    restat.Some? && restat.value.nlink > 0 && Same(restat.value.key, key)
  }

  /** The registry already holds the identity for this process. */
  predicate HeldBy(r: Registry, key: Key, pid: Pid) {
    key in r && r[key].pid == pid
  }

  /** The iteration flocks a file the process does not hold but the re-stat does not confirm it:
      the loop goes round again. */
  predicate Retries(r: Registry, pid: Pid, a: Attempt) {
    && a.descriptor >= 0
    && a.status.Some?
    && !HeldBy(r, a.status.value, pid)
    && a.flocked
    && !StillLinked(a.restat, a.status.value)
  }

  /** The iteration fails in open, fstat or flock. */
  predicate Throws(r: Registry, pid: Pid, a: Attempt) {
    || a.descriptor < 0
    || a.status.None?
    || (!HeldBy(r, a.status.value, pid) && !a.flocked)
  }

  /** One iteration of the `while(true)` loop of `lock`, for the process `pid`. */
  function LockStep(r: Registry, pid: Pid, a: Attempt): (s: Step)
    // How the iteration ends is decided by the system calls and by whether the caller holds the identity.
    ensures s.status.Again? <==> Retries(r, pid, a)
    ensures s.status.Threw? <==> Throws(r, pid, a)
    // Going round again changes nobody's holdings of the caller.
    ensures s.status.Again? ==> forall k :: HeldBy(s.registry, k, pid) <==> HeldBy(r, k, pid)
    // A returned lock is registered, belongs to the caller, and has the identity fstat reported.
    ensures s.status.Locked? ==>
              && a.status == Some(s.status.key)
              && s.status.key in s.registry
              && s.registry[s.status.key] == s.status.entry
              && s.status.entry.pid == pid
    // Only the slot of the fstat identity can change.
    ensures a.status.None? ==> s.registry == r
    ensures a.status.Some? ==> AgreeExcept(r, s.registry, a.status.value)
    // Without a lock nothing is inserted or changed; at most a stale entry is erased.
    ensures !s.status.Locked? ==> Shrunk(r, s.registry)
    // Entries of the calling process survive.
    ensures forall k | HeldBy(r, k, pid) :: k in s.registry
    // The new descriptor is either closed or stored in a fresh entry of count 1.
    ensures s.closed.Some? ==> a.descriptor >= 0 && s.closed.value == a.descriptor
    ensures a.descriptor >= 0 ==>
              (s.closed.None? <==> s.status.Locked? && !HeldBy(r, s.status.key, pid))
    ensures s.status.Locked? && !HeldBy(r, s.status.key, pid) ==> s.status.entry == Entry(a.descriptor, 1, pid)
    ensures s.status.Locked? && HeldBy(r, s.status.key, pid) ==>
              s.status.entry == r[s.status.key].(count := r[s.status.key].count + 1)
    // A stale entry of another process under the fstat identity is dropped, and only such an entry.
    ensures a.descriptor >= 0 && a.status.Some? && a.status.value in r && r[a.status.value].pid != pid ==>
              s.dropped == Some(r[a.status.value].descriptor)
    ensures s.dropped.Some? ==>
              && a.status.Some?
              && a.status.value in r
              && r[a.status.value].pid != pid
              && s.dropped.value == r[a.status.value].descriptor
              && (a.status.value in s.registry ==> s.registry[a.status.value].pid == pid)
    ensures Valid(r) ==> Valid(s.registry)
  {
    if a.descriptor < 0 then
      Step(r, Threw(OpenFailed), None, None)
    else if a.status.None? then
      Step(r, Threw(FstatFailed), Some(a.descriptor), None)
    else
      var id := a.status.value;
      if HeldBy(r, id, pid) then
        var e := r[id].(count := r[id].count + 1);
        Step(r[id := e], Locked(id, e), Some(a.descriptor), None)
      else
        var base := if id in r then r - {id} else r;
        var dropped := if id in r then Some(r[id].descriptor) else None;
        if !a.flocked then
          Step(base, Threw(FlockFailed), Some(a.descriptor), dropped)
        else if StillLinked(a.restat, id) then
          var e := Entry(a.descriptor, 1, pid);
          Step(Emplace(base, id, e), Locked(id, e), None, dropped)
        else
          Step(base, Again, Some(a.descriptor), dropped)
  }

  /** Reentrant hit: the count goes up by exactly one, the stored descriptor stays,
      the new descriptor is closed, and every other entry is unchanged. */
  lemma ReentrantLock(r: Registry, pid: Pid, a: Attempt)
    requires a.descriptor >= 0 && a.status.Some?
    requires HeldBy(r, a.status.value, pid)
    ensures var k := a.status.value;
            var s := LockStep(r, pid, a);
            && s.status == Locked(k, r[k].(count := r[k].count + 1))
            && s.registry == r[k := r[k].(count := r[k].count + 1)]
            && s.closed == Some(a.descriptor)
            && s.dropped.None?
  {
  }

  /** Fresh acquire: an absent identity, or one held by another process (erased first),
      whose flock succeeds and whose re-stat matches, gets an entry of count 1 for the caller. */
  lemma FreshLock(r: Registry, pid: Pid, a: Attempt)
    requires a.descriptor >= 0 && a.status.Some?
    requires !HeldBy(r, a.status.value, pid)
    requires a.flocked && StillLinked(a.restat, a.status.value)
    ensures var k := a.status.value;
            var s := LockStep(r, pid, a);
            && s.status == Locked(k, Entry(a.descriptor, 1, pid))
            && s.registry == (r - {k})[k := Entry(a.descriptor, 1, pid)]
            && s.closed.None?
            && (s.dropped.Some? <==> k in r)
  {
  }

  /** Identity mismatch or a vanished link after the flock: nothing is inserted for the
      identity, the descriptor is closed, and the loop starts over. */
  lemma LockRetry(r: Registry, pid: Pid, a: Attempt)
    requires a.descriptor >= 0 && a.status.Some?
    requires !HeldBy(r, a.status.value, pid)
    requires a.flocked && !StillLinked(a.restat, a.status.value)
    ensures var s := LockStep(r, pid, a);
            && s.status == Again
            && s.registry == r - {a.status.value}
            && s.closed == Some(a.descriptor)
  {
  }

  /** open, fstat or flock failure throws, registers nothing for the identity and closes
      the descriptor when one was opened. */
  lemma LockThrows(r: Registry, pid: Pid, a: Attempt)
    requires a.descriptor < 0 || a.status.None? || (!HeldBy(r, a.status.value, pid) && !a.flocked)
    ensures var s := LockStep(r, pid, a);
            && s.status.Threw?
            && (a.descriptor >= 0 && a.status.Some? ==> a.status.value !in s.registry)
            && (s.closed.Some? <==> a.descriptor >= 0)
            && (a.descriptor < 0 ==> s.status.error == OpenFailed && s.registry == r)
            && (a.descriptor >= 0 && a.status.None? ==> s.status.error == FstatFailed && s.registry == r)
  {
  }

  /** The whole `lock` call driven by the outcomes of its successive iterations. */
  datatype Run = Run(registry: Registry, status: Status, rounds: nat, closed: seq<Fd>, dropped: seq<Fd>)

  function AsSeq(o: Option<Fd>): seq<Fd> {
    if o.Some? then [o.value] else []
  }

  /** `lock`: iterate until an attempt locks or throws. When the attempts run out while the
      loop would still retry, the status is `Again` (the call has not returned yet). */
  function LockRun(r: Registry, pid: Pid, attempts: seq<Attempt>): (run: Run)
    ensures run.rounds <= |attempts|
    ensures run.status.Again? ==> run.rounds == |attempts|
    // The loop ends at the first iteration that does not retry: every earlier one retried,
    // judged against the registry the call started from.
    ensures forall i | 0 <= i < run.rounds - 1 :: Retries(r, pid, attempts[i])
    ensures run.status.Again? ==> forall i | 0 <= i < run.rounds :: Retries(r, pid, attempts[i])
    ensures run.status.Threw? ==> run.rounds >= 1 && Throws(r, pid, attempts[run.rounds - 1])
    ensures run.status.Locked? ==>
              run.rounds >= 1 && !Retries(r, pid, attempts[run.rounds - 1]) && !Throws(r, pid, attempts[run.rounds - 1])
    // The returned lock belongs to the caller and is registered under its identity;
    // it is either a fresh entry or the caller's earlier entry with one more lock.
    ensures run.status.Locked? ==>
              && run.rounds >= 1
              && attempts[run.rounds - 1].status == Some(run.status.key)
              && run.status.key in run.registry
              && run.registry[run.status.key] == run.status.entry
              && run.status.entry.pid == pid
              && (!HeldBy(r, run.status.key, pid) ==>
                    run.status.entry == Entry(attempts[run.rounds - 1].descriptor, 1, pid))
              && (HeldBy(r, run.status.key, pid) ==>
                    run.status.entry == r[run.status.key].(count := r[run.status.key].count + 1))
    // Apart from the returned lock, the registry only loses stale entries of other processes.
    ensures forall k | k in run.registry && !(run.status.Locked? && k == run.status.key) :: k in r && run.registry[k] == r[k]
    ensures forall k | k in r && k !in run.registry :: r[k].pid != pid
    // Every descriptor opened by an iteration is closed, or stored by a fresh lock in the last one.
    ensures forall i | 0 <= i < run.rounds && attempts[i].descriptor >= 0 ::
              || attempts[i].descriptor in run.closed
              || (&& run.status.Locked?
                  && i == run.rounds - 1
                  && run.status.entry == Entry(attempts[i].descriptor, 1, pid))
    ensures Valid(r) ==> Valid(run.registry)
    decreases |attempts|
  {
    if |attempts| == 0 then
      Run(r, Again, 0, [], [])
    else
      var s := LockStep(r, pid, attempts[0]);
      if s.status.Again? then
        var rest := LockRun(s.registry, pid, attempts[1..]);
        assert forall i | 1 <= i < |attempts| :: attempts[1..][i - 1] == attempts[i];
        Run(rest.registry, rest.status, rest.rounds + 1, AsSeq(s.closed) + rest.closed, AsSeq(s.dropped) + rest.dropped)
      else
        Run(s.registry, s.status, 1, AsSeq(s.closed), AsSeq(s.dropped))
  }

  /** The first `run.rounds - 1` descriptors closed are those of the first `run.rounds - 1` attempts, in order. */
  ghost predicate ClosesRetries(run: Run, attempts: seq<Attempt>) {
    forall i | 0 <= i < run.rounds - 1 :: i < |run.closed| && i < |attempts| && run.closed[i] == attempts[i].descriptor
  }

  /** Descriptors of a `lock` call, round by round: each retry closed its own descriptor, in order. */
  lemma {:induction false} LockRunClosesRetries(r: Registry, pid: Pid, attempts: seq<Attempt>)
    ensures ClosesRetries(LockRun(r, pid, attempts), attempts)
    decreases |attempts|
  {
    if |attempts| > 0 {
      var s := LockStep(r, pid, attempts[0]);
      if s.status.Again? {
        var tail := attempts[1..];
        LockRunClosesRetries(s.registry, pid, tail);
        var rest := LockRun(s.registry, pid, tail);
        var run := LockRun(r, pid, attempts);
        assert run.closed == [attempts[0].descriptor] + rest.closed;
        assert run.rounds == rest.rounds + 1;
        forall i | 0 <= i < run.rounds - 1
          ensures i < |run.closed| && i < |attempts| && run.closed[i] == attempts[i].descriptor
        {
          if i > 0 {
            assert tail[i - 1] == attempts[i];
            assert rest.closed[i - 1] == tail[i - 1].descriptor;
          }
        }
      } else {
        assert LockRun(r, pid, attempts).rounds == 1;
      }
    }
  }

  /** Every round closes its descriptor except a last round that stored it in a fresh entry or
      whose open failed; a closed last descriptor is the last attempt's. So every opened descriptor
      is closed except the one a fresh lock keeps. */
  lemma {:induction false} LockRunClosedCount(r: Registry, pid: Pid, attempts: seq<Attempt>)
    ensures var run := LockRun(r, pid, attempts);
            && |run.closed| == run.rounds - (if (run.status.Locked? && !HeldBy(r, run.status.key, pid))
                                                || (run.status.Threw? && attempts[run.rounds - 1].descriptor < 0)
                                             then 1 else 0)
            && (run.rounds >= 1 && |run.closed| == run.rounds ==> run.closed[run.rounds - 1] == attempts[run.rounds - 1].descriptor)
    decreases |attempts|
  {
    if |attempts| > 0 {
      var s := LockStep(r, pid, attempts[0]);
      if s.status.Again? {
        var tail := attempts[1..];
        LockRunClosedCount(s.registry, pid, tail);
        var rest := LockRun(s.registry, pid, tail);
        var run := LockRun(r, pid, attempts);
        assert run.closed == [attempts[0].descriptor] + rest.closed;
        assert run.rounds == rest.rounds + 1 && run.status == rest.status;
        assert rest.status.Locked? ==> (HeldBy(s.registry, rest.status.key, pid) <==> HeldBy(r, rest.status.key, pid));
        if rest.rounds >= 1 {
          assert tail[rest.rounds - 1] == attempts[run.rounds - 1];
        }
      }
    }
  }

  /** Entries a `lock` call loses: only identities some iteration fstat'd, and each lost entry's
      descriptor is reported as dropped. */
  lemma {:induction false} LockRunLosses(r: Registry, pid: Pid, attempts: seq<Attempt>)
    ensures var run := LockRun(r, pid, attempts);
            && (forall k | k in r && k !in run.registry :: exists i | 0 <= i < run.rounds :: attempts[i].status == Some(k))
            && (forall k | k in r && k !in run.registry :: r[k].descriptor in run.dropped)
    decreases |attempts|
  {
    if |attempts| > 0 {
      var s := LockStep(r, pid, attempts[0]);
      if s.status.Again? {
        LockRunLosses(s.registry, pid, attempts[1..]);
        var run := LockRun(r, pid, attempts);
        var rest := LockRun(s.registry, pid, attempts[1..]);
        forall k | k in r && k !in run.registry
          ensures exists i | 0 <= i < run.rounds :: attempts[i].status == Some(k)
          ensures r[k].descriptor in run.dropped
        {
          if k in s.registry {
            var i :| 0 <= i < rest.rounds && attempts[1..][i].status == Some(k);
            assert attempts[i + 1].status == Some(k);
          } else {
            assert attempts[0].status == Some(k);
          }
        }
      }
    }
  }
}

=== FILE: guard.dfy ===
/** `locker::lock_guard_t`: a scope that pairs one `lock` with one `unlock` of the identity
    the lock returned, and the counting discipline of nested guards on one file. */
module Guard {
  import opened Optional
  import opened LockKey
  import opened LockRegistry
  import opened AcquireProtocol
  import opened ReleaseProtocol

  /** The lock taken by the constructor, the unlock run by the destructor when the lock returned,
      and whether the process ended there: the destructor is implicitly `noexcept`, so an exception
      out of `release` calls `std::terminate`. */
  datatype GuardRun = GuardRun(locked: Run, unlocked: Option<UnlockRun>, terminated: bool)

  /** The registry after the guard's scope ends (or after the constructor threw). When `terminated`
      holds, no later operation of the process sees it. */
  function FinalRegistry(g: GuardRun): Registry {
    if g.unlocked.Some? then g.unlocked.value.registry else g.locked.registry
  }

  /** A guard over an empty scope: construct (lock), then destruct (unlock the same identity). */
  function LockGuard(r: Registry, pid: Pid, attempts: seq<Attempt>, keepEmpty: bool, p: Probe): (g: GuardRun)
    // Exactly one unlock for a returned lock, none when the constructor did not return a lock.
    // The constructor runs `lock`; the destructor runs `unlock`, whose release runs exactly when
    // the guard took the identity afresh (for a valid registry).
    ensures g.locked == LockRun(r, pid, attempts)
    ensures g.unlocked.Some? <==> g.locked.status.Locked?
    ensures Valid(r) && g.locked.status.Locked? ==>
              (g.unlocked.value.release.Some? <==> !HeldBy(r, g.locked.status.key, pid))
    ensures g.locked.status.Locked? && g.unlocked.value.release.Some? ==>
              g.unlocked.value.release.value == Release(keepEmpty, p)
    // The process terminates exactly when the destructor's release throws, which for a valid
    // registry is the release of an identity this guard locked afresh.
    ensures g.terminated <==> g.unlocked.Some? && ReleaseThrew(g.unlocked.value)
    ensures Valid(r) ==>
              (g.terminated <==>
                 && g.locked.status.Locked?
                 && !HeldBy(r, g.locked.status.key, pid)
                 && Release(keepEmpty, p).error.Some?)
    // The destructor touches only the identity the constructor locked.
    ensures g.locked.status.Locked? ==> AgreeExcept(g.locked.registry, FinalRegistry(g), g.locked.status.key)
    // A nested guard on an identity the process already holds gives the count back.
    ensures Valid(r) && g.locked.status.Locked? && HeldBy(r, g.locked.status.key, pid) ==>
              var k := g.locked.status.key;
              k in FinalRegistry(g) && FinalRegistry(g)[k] == r[k]
    // An outermost guard leaves the identity unregistered once its release succeeds.
    ensures g.locked.status.Locked? && !HeldBy(r, g.locked.status.key, pid) && !ReleaseThrew(g.unlocked.value) ==>
              g.locked.status.key !in FinalRegistry(g)
  {
    var run := LockRun(r, pid, attempts);
    if run.status.Locked? then
      var u := Unlock(run.registry, run.status.key, keepEmpty, p);
      GuardRun(run, Some(u), ReleaseThrew(u))
    else
      GuardRun(run, None, false)
  }

  /** `n` successive `lock` calls that each see the same system-call outcomes. On an identity the
      process holds, each call closes its new descriptor, so `open` may hand out the same number again. */
  function LockTimes(r: Registry, pid: Pid, a: Attempt, n: nat): Registry
  {
    if n == 0 then r else LockStep(LockTimes(r, pid, a, n - 1), pid, a).registry
  }

  /** `n` successive `unlock` calls on one identity. */
  function UnlockTimes(r: Registry, key: Key, keepEmpty: bool, p: Probe, n: nat): Registry
  {
    if n == 0 then r else Unlock(UnlockTimes(r, key, keepEmpty, p, n - 1), key, keepEmpty, p).registry
  }

  /** The system calls of a first `lock` that acquires a fresh entry. */
  predicate Acquires(r: Registry, pid: Pid, a: Attempt) {
    && a.descriptor >= 0
    && a.status.Some?
    && !HeldBy(r, a.status.value, pid)
    && a.flocked
    && StillLinked(a.restat, a.status.value)
  }

  /** Locks on an identity the process holds only raise its count. */
  lemma {:induction false} RelockCounts(r: Registry, pid: Pid, a: Attempt, n: nat)
    requires a.descriptor >= 0 && a.status.Some?
    requires HeldBy(r, a.status.value, pid)
    ensures var k := a.status.value;
            LockTimes(r, pid, a, n) == r[k := r[k].(count := r[k].count + n)]
  {
    if n > 0 {
      RelockCounts(r, pid, a, n - 1);
      ReentrantLock(LockTimes(r, pid, a, n - 1), pid, a);
    }
  }

  /** Successive `lock` calls, the `i`-th seeing the system-call outcomes `attempts[i]`. */
  function LockSeq(r: Registry, pid: Pid, attempts: seq<Attempt>): Registry
  {
    if |attempts| == 0 then r
    else LockStep(LockSeq(r, pid, attempts[..|attempts| - 1]), pid, attempts[|attempts| - 1]).registry
  }

  /** A first `lock` that acquires a fresh entry, then reentrant `lock` calls of the same path:
      each later `open` returns any descriptor and `fstat` reports the same identity. */
  predicate NestedAttempts(r: Registry, pid: Pid, attempts: seq<Attempt>) {
    && |attempts| >= 1
    && Acquires(r, pid, attempts[0])
    && forall i | 1 <= i < |attempts| :: attempts[i].descriptor >= 0 && attempts[i].status == attempts[0].status
  }

  /** `n` locks starting from a fresh acquire leave one entry with count `n`, holding the
      descriptor of the first lock. */
  lemma {:induction false} FreshThenRelock(r: Registry, pid: Pid, attempts: seq<Attempt>)
    requires NestedAttempts(r, pid, attempts)
    ensures var k := attempts[0].status.value;
            LockSeq(r, pid, attempts) == (r - {k})[k := Entry(attempts[0].descriptor, |attempts|, pid)]
  {
    var k := attempts[0].status.value;
    var n := |attempts|;
    var prefix := attempts[..n - 1];
    assert prefix[..0] == [];
    if n == 1 {
      FreshLock(r, pid, attempts[0]);
    } else {
      assert prefix[0] == attempts[0];
      assert NestedAttempts(r, pid, prefix);
      FreshThenRelock(r, pid, prefix);
      ReentrantLock(LockSeq(r, pid, prefix), pid, attempts[n - 1]);
    }
  }

  /** Fewer unlocks than the count only lower the count; no release runs. */
  lemma {:induction false} UnlockCounts(r: Registry, key: Key, keepEmpty: bool, p: Probe, m: nat)
    requires key in r && m < r[key].count
    ensures UnlockTimes(r, key, keepEmpty, p, m) == r[key := r[key].(count := r[key].count - m)]
  {
    if m > 0 {
      UnlockCounts(r, key, keepEmpty, p, m - 1);
    }
  }

  /** `n` nested locks of a file the process did not hold, then `n` unlocks whose release
      succeeds, leave it unregistered; after `n - 1` unlocks it is still held with count 1. */
  lemma {:induction false} NestedBalanced(r: Registry, pid: Pid, attempts: seq<Attempt>, keepEmpty: bool, p: Probe)
    requires NestedAttempts(r, pid, attempts)
    requires Release(keepEmpty, p).error.None?
    ensures var k := attempts[0].status.value;
            var held := UnlockTimes(LockSeq(r, pid, attempts), k, keepEmpty, p, |attempts| - 1);
            k in held && held[k] == Entry(attempts[0].descriptor, 1, pid)
    ensures var k := attempts[0].status.value;
            UnlockTimes(LockSeq(r, pid, attempts), k, keepEmpty, p, |attempts|) == r - {k}
  {
    var k := attempts[0].status.value;
    var n := |attempts|;
    var locked := LockSeq(r, pid, attempts);
    FreshThenRelock(r, pid, attempts);
    UnlockCounts(locked, k, keepEmpty, p, n - 1);
    var held := UnlockTimes(locked, k, keepEmpty, p, n - 1);
    assert held == (r - {k})[k := Entry(attempts[0].descriptor, 1, pid)];
    LastUnlock(held, k, keepEmpty, p);
    assert UnlockTimes(locked, k, keepEmpty, p, n) == Unlock(held, k, keepEmpty, p).registry;
    assert held - {k} == r - {k};
  }

  /** The unlock that takes the count to zero erases the entry once its release succeeds. */
  lemma LastUnlock(r: Registry, key: Key, keepEmpty: bool, p: Probe)
    requires key in r && r[key].count == 1
    requires Release(keepEmpty, p).error.None?
    ensures Unlock(r, key, keepEmpty, p).registry == r - {key}
  {
  }

  /** `n` nested locks of a file the process already holds, then `n` unlocks, restore the registry. */
  lemma {:induction false} NestedHeld(r: Registry, pid: Pid, a: Attempt, keepEmpty: bool, p: Probe, n: nat)
    requires a.descriptor >= 0 && a.status.Some?
    requires HeldBy(r, a.status.value, pid) && r[a.status.value].count >= 1
    ensures UnlockTimes(LockTimes(r, pid, a, n), a.status.value, keepEmpty, p, n) == r
  {
    var k := a.status.value;
    RelockCounts(r, pid, a, n);
    UnlockCounts(LockTimes(r, pid, a, n), k, keepEmpty, p, n);
    assert r[k := r[k].(count := r[k].count + n)][k := r[k].(count := r[k].count)] == r;
  }
}

=== FILE: key.dfy ===
/** Identity of a lockfile: the (inode, device) pair that `fstat` and `stat` report.
    Two paths naming the same file (hard links, `./a` and `a`) have the same identity. */
module LockKey {

  /** `key_t`. `ino_t` and `dev_t` are unsigned, so both parts are natural numbers. */
  datatype Key = Key(inode: nat, device: nat)

  /** The part of a `struct stat` the locker looks at: identity and link count. */
  datatype Stat = Stat(key: Key, nlink: nat)

  /** `key_t::operator==`: both components agree. */
  predicate Same(a: Key, b: Key) {
    a.inode == b.inode && a.device == b.device
  }

  /** `key_t::operator<`: lexicographic on (inode, device); the order the registry map is sorted by. */
  predicate Less(a: Key, b: Key) {
    a.inode < b.inode || (a.inode == b.inode && a.device < b.device)
  }

  /** `std::map` puts two keys in the same slot when neither is less than the other. */
  predicate Equivalent(a: Key, b: Key) {
    !Less(a, b) && !Less(b, a)
  }

  lemma SameIsEquality(a: Key, b: Key)
    ensures Same(a, b) <==> a == b
  {
  }

  lemma LessIrreflexive(a: Key)
    ensures !Less(a, a)
  {
  }

  lemma LessTransitive(a: Key, b: Key, c: Key)
    requires Less(a, b) && Less(b, c)
    ensures Less(a, c)
  {
  }

  /** Exactly one of `a < b`, `a == b`, `b < a` holds. */
  lemma LessTrichotomy(a: Key, b: Key)
    ensures Less(a, b) || Same(a, b) || Less(b, a)
    ensures !(Less(a, b) && Same(a, b))
    ensures !(Less(a, b) && Less(b, a))
    ensures !(Same(a, b) && Less(b, a))
  {
  }

  /** The map's notion of "same key" coincides with `operator==` and with Dafny equality,
      so a Dafny `map<Key, _>` has exactly the slots of the `std::map`. */
  lemma EquivalentIsSame(a: Key, b: Key)
    ensures Equivalent(a, b) <==> Same(a, b)
    ensures Equivalent(a, b) <==> a == b
  {
  }
}

=== FILE: optional.dfy ===
/** The optional value used for system-call outcomes that either report data or fail. */
module Optional {

  datatype Option<+T> = None | Some(value: T)
}

=== FILE: read.dfy ===
/** The two pure computations inside the read helpers: trailing-newline stripping in
    `read<true>` and the element count of the binary `read<T>`. */
module ReadHelpers {

  /** `s` ends in a line feed. */
  predicate EndsInNewline(s: string) {
    |s| > 0 && s[|s| - 1] == '\n'
  }

  /** The loop of `read<true>`: while the text ends in "\n", drop it, and drop one "\r" right before it. */
  function StripNewlines(s: string): (r: string)
    // The result is a prefix of the input that no longer ends in a line feed.
    ensures r <= s
    ensures !EndsInNewline(r)
    // Text without a trailing line feed is returned as it is.
    ensures !EndsInNewline(s) ==> r == s
    decreases |s|
  {
    if EndsInNewline(s) then
      var t := s[..|s| - 1];
      var u := if |t| > 0 && t[|t| - 1] == '\r' then t[..|t| - 1] else t;
      StripNewlines(u)
    else
      s
  }

  /** `r` is `s` without a run of line ends at its end: a prefix not ending in "\n" after which
      only "\n" and "\r\n" follow, where a "\r" right before a removed "\n" goes with it. */
  ghost predicate IsStripped(s: string, r: string) {
    && r <= s
    && !EndsInNewline(r)
    && (forall i | |r| <= i < |s| :: s[i] == '\n' || s[i] == '\r')
    && (forall i | |r| <= i < |s| && s[i] == '\r' :: i + 1 < |s| && s[i + 1] == '\n')
    && (|r| < |s| && |r| > 0 && r[|r| - 1] == '\r' ==> s[|r|] != '\n')
  }

  /** The loop removes exactly line ends: its result satisfies `IsStripped`. */
  lemma {:induction false} StripNewlinesRemovesLineEnds(s: string)
    ensures IsStripped(s, StripNewlines(s))
    decreases |s|
  {
    if EndsInNewline(s) {
      var t := s[..|s| - 1];
      var u := if |t| > 0 && t[|t| - 1] == '\r' then t[..|t| - 1] else t;
      var r := StripNewlines(u);
      assert r == StripNewlines(s);
      StripNewlinesRemovesLineEnds(u);
      assert u <= s;
      forall i | |r| <= i < |s|
        ensures s[i] == '\n' || s[i] == '\r'
        ensures s[i] == '\r' ==> i + 1 < |s| && s[i + 1] == '\n'
      {
        if i < |u| {
          assert s[i] == u[i];
          if s[i] == '\r' {
            assert i + 1 < |u| && u[i + 1] == '\n';
          }
        }
      }
      if |r| < |s| && |r| > 0 && r[|r| - 1] == '\r' {
        if |r| < |u| {
          assert s[|r|] == u[|r|];
        } else {
          assert r == u;
        }
      }
    }
  }

  /** The description `IsStripped` determines the result: `StripNewlines` is the only string satisfying it. */
  lemma StripNewlinesUnique(s: string, r: string)
    requires IsStripped(s, r)
    ensures r == StripNewlines(s)
  {
    StripNewlinesRemovesLineEnds(s);
  }

  /** Stripping twice is stripping once. */
  lemma StripNewlinesIdempotent(s: string)
    ensures StripNewlines(StripNewlines(s)) == StripNewlines(s)
  {
  }

  /** `read<T>`: a file of `bytes` bytes yields `bytes / sizeof(T)` elements; a trailing
      partial element is ignored. */
  function ElementCount(bytes: nat, width: nat): (count: nat)
    requires width > 0
    ensures count * width <= bytes < (count + 1) * width
  {
    bytes / width
  }

  /** The bounds single out the count: no other number of whole elements fits. */
  lemma ElementCountUnique(bytes: nat, width: nat, c: nat)
    requires width > 0
    requires c * width <= bytes < (c + 1) * width
    ensures c == ElementCount(bytes, width)
  {
    var n := ElementCount(bytes, width);
    assert (c + 1 - n) * width == (c + 1) * width - n * width;
    assert (n + 1 - c) * width == (n + 1) * width - c * width;
    PositiveFactor(c + 1 - n, width);
    PositiveFactor(n + 1 - c, width);
  }

  lemma PositiveFactor(d: int, w: nat)
    requires d * w > 0
    ensures d > 0
  {
  }

  /** A file three elements and one byte long reads as three elements of two or more bytes. */
  lemma TrailingByteIgnored(width: nat)
    requires width > 1
    ensures ElementCount(3 * width + 1, width) == 3
  {
    ElementCountUnique(3 * width + 1, width, 3);
  }
}

=== FILE: registry.dfy ===
/** The process-wide registry `locker::lockfiles`: identity -> held lock. */
module LockRegistry {
  import opened LockKey

  /** A kernel file descriptor, the `int` that `open` returns. */
  type Fd = int

  /** A process id (`pid_t`). */
  type Pid = int

  /** `value_t`: the descriptor holding the flock, the reentrant count (`int num_locks`)
      and the process that took the lock. */
  datatype Entry = Entry(descriptor: Fd, count: int, pid: Pid)

  /** `std::map<key_t, value_t>`. By `LockKey.EquivalentIsSame` its slots are Dafny's map keys. */
  type Registry = map<Key, Entry>

  /** Every entry present holds at least one lock. */
  ghost predicate Valid(r: Registry) {
    forall k | k in r :: r[k].count >= 1
  }

  /** `r'` differs from `r` at most in the slot `key`. */
  ghost predicate AgreeExcept(r: Registry, r': Registry, key: Key) {
    forall k | k != key :: (k in r <==> k in r') && (k in r ==> r[k] == r'[k])
  }

  /** `r'` only lost entries of `r`: nothing was added or changed. */
  ghost predicate Shrunk(r: Registry, r': Registry) {
    forall k | k in r' :: k in r && r'[k] == r[k]
  }

  /** `std::map::emplace`: the entry is inserted when the key is absent; a present key keeps its entry. */
  function Emplace(r: Registry, key: Key, e: Entry): (r': Registry)
    ensures key in r'
    ensures key !in r ==> r'[key] == e
    ensures key in r ==> r'[key] == r[key]
    ensures AgreeExcept(r, r', key)
  {
    if key in r then r else r[key := e]
  }
}

=== FILE: release.dfy ===
/** The release protocol: `locker::release<should_keep_empty>` (fsync, unlink an empty
    lockfile, close), `locker::unlock<should_keep_empty>` and the teardown in `~locker`. */
module ReleaseProtocol {
  import opened Optional
  import opened LockKey
  import opened LockRegistry

  /** `PATH_MAX` as the header defines it when the platform does not. */
  const PathMax: int := 4096

  /** What the system calls of one `release` report. */
  datatype Probe = Probe(
    fstat: Option<Stat>,  // fstat(descriptor); None on failure
    readlink: int,        // length returned by readlink("/proc/self/fd/<descriptor>")
    stat: Option<Key>,    // stat(filename) identity; None on failure
    fsynced: bool,        // fsync(descriptor) succeeded
    size: int,            // lseek(descriptor, 0, SEEK_END); negative on failure
    unlinked: bool,       // unlink(filename) succeeded
    closed: bool)         // close(descriptor) succeeded

  /** The `std::runtime_error`s `release` throws. */
  datatype ReleaseError =
    | FstatFailed | ReadlinkFailed | StatFailed | IdentityMismatch
    | FsyncFailed | LseekFailed | UnlinkFailed | CloseFailed

  /** What `release` did: whether it called unlink, whether it called close, and what it threw. */
  datatype ReleaseRun = ReleaseRun(unlinkCalled: bool, closeCalled: bool, error: Option<ReleaseError>)

  /** readlink on the descriptor's `/proc/self/fd` entry returned a length the buffer holds. */
  predicate ReadlinkOk(p: Probe) {
    0 <= p.readlink <= PathMax
  }

  /** All checks before the unlink pass for a linked, empty lockfile. */
  predicate EmptyAndOwned(p: Probe) {
    && p.fstat.Some?
    && ReadlinkOk(p)
    && p.fstat.value.nlink > 0
    && p.stat == Some(p.fstat.value.key)
    && p.fsynced
    && p.size == 0
  }

  /** Every step of a release that keeps empty lockfiles succeeds: the fsync runs only
      while the file is linked. */
  predicate KeepingSucceeds(p: Probe) {
    && p.fstat.Some?
    && ReadlinkOk(p)
    && (p.fstat.value.nlink > 0 ==> p.fsynced)
    && p.closed
  }

  /** Every step of a release that removes empty lockfiles succeeds: a linked file must still be
      named by its path, fsync and lseek must succeed, and an empty one must unlink. */
  predicate RemovingSucceeds(p: Probe) {
    && p.fstat.Some?
    && ReadlinkOk(p)
    && (p.fstat.value.nlink > 0 ==>
          && p.stat == Some(p.fstat.value.key)
          && p.fsynced
          && p.size >= 0
          && (p.size == 0 ==> p.unlinked))
    && p.closed
  }

  function CloseStep(unlinkCalled: bool, p: Probe): ReleaseRun {
    ReleaseRun(unlinkCalled, true, if p.closed then None else Some(CloseFailed))
  }

  /** `release<keepEmpty>(descriptor)`. */
  function Release(keepEmpty: bool, p: Probe): (run: ReleaseRun)
    // Unlink only for a linked, identity-checked, fsynced, empty file, and never when keeping empty files.
    ensures run.unlinkCalled ==> !keepEmpty && EmptyAndOwned(p)
    ensures !keepEmpty && EmptyAndOwned(p) ==> run.unlinkCalled
    // A release throws exactly when one of the steps its mode runs fails.
    ensures !keepEmpty ==> (run.error.None? <==> RemovingSucceeds(p))
    ensures keepEmpty ==> (run.error.None? <==> KeepingSucceeds(p))
    ensures keepEmpty ==> run.error !in {Some(StatFailed), Some(IdentityMismatch), Some(LseekFailed), Some(UnlinkFailed)}
    // A descriptor whose path now names a different file is neither unlinked nor closed.
    ensures !keepEmpty && p.fstat.Some? && ReadlinkOk(p) && p.fstat.value.nlink > 0
            && p.stat.Some? && p.stat.value != p.fstat.value.key ==>
              run == ReleaseRun(false, false, Some(IdentityMismatch))
    // An already unlinked file is only closed.
    ensures p.fstat.Some? && ReadlinkOk(p) && p.fstat.value.nlink == 0 ==>
              !run.unlinkCalled && run.closeCalled
    // close is the last step: it runs exactly when nothing before it threw.
    ensures run.closeCalled <==> run.error.None? || run.error == Some(CloseFailed)
    ensures run.error.None? <==> run.closeCalled && p.closed
    ensures run.error == Some(UnlinkFailed) <==> run.unlinkCalled && !p.unlinked
  {
    if p.fstat.None? then
      ReleaseRun(false, false, Some(FstatFailed))
    else if !ReadlinkOk(p) then
      ReleaseRun(false, false, Some(ReadlinkFailed))
    else if p.fstat.value.nlink > 0 then
      if !keepEmpty && p.stat.None? then
        ReleaseRun(false, false, Some(StatFailed))
      else if !keepEmpty && !Same(p.stat.value, p.fstat.value.key) then
        ReleaseRun(false, false, Some(IdentityMismatch))
      else if !p.fsynced then
        ReleaseRun(false, false, Some(FsyncFailed))
      else if !keepEmpty && p.size < 0 then
        ReleaseRun(false, false, Some(LseekFailed))
      else if !keepEmpty && p.size == 0 then
        if p.unlinked then CloseStep(true, p) else ReleaseRun(true, false, Some(UnlinkFailed))
      else
        CloseStep(false, p)
    else
      CloseStep(false, p)
  }

  /** `unlock`: what the registry looks like afterwards and the release it ran, if any. */
  datatype UnlockRun = UnlockRun(registry: Registry, release: Option<ReleaseRun>)

  /** The release of an `UnlockRun` threw. */
  predicate ReleaseThrew(u: UnlockRun) {
    u.release.Some? && u.release.value.error.Some?
  }

  /** `unlock<keepEmpty>(key)`. */
  function Unlock(r: Registry, key: Key, keepEmpty: bool, p: Probe): (u: UnlockRun)
    // An identity that is not registered is a no-op.
    ensures key !in r ==> u == UnlockRun(r, None)
    // No other slot is touched.
    ensures AgreeExcept(r, u.registry, key)
    // The count goes down by one; the entry survives exactly when it is still positive
    // or when the release threw.
    ensures key in r && r[key].count - 1 > 0 ==> u.release.None?
    ensures key in r && r[key].count - 1 <= 0 ==> u.release == Some(Release(keepEmpty, p))
    ensures key in r ==> (key in u.registry <==> r[key].count - 1 > 0 || ReleaseThrew(u))
    ensures key in u.registry ==> key in r && u.registry[key] == r[key].(count := r[key].count - 1)
    ensures Valid(r) && !ReleaseThrew(u) ==> Valid(u.registry)
  {
    if key in r then
      var e := r[key].(count := r[key].count - 1);
      if e.count <= 0 then
        var run := Release(keepEmpty, p);
        if run.error.Some? then UnlockRun(r[key := e], Some(run))
        else UnlockRun(r - {key}, Some(run))
      else
        UnlockRun(r[key := e], None)
    else
      UnlockRun(r, None)
  }

  /** `~locker`: every entry is released best-effort, keeping empty lockfiles, failures ignored. */
  datatype TeardownRun = TeardownRun(registry: Registry, releases: map<Key, ReleaseRun>)

  /** The destructor of the registry singleton, with `probe(k)` the system calls for entry `k`. */
  function Teardown(r: Registry, probe: Key -> Probe): (t: TeardownRun)
    ensures t.registry == map[]
    ensures t.releases.Keys == r.Keys
    ensures forall k | k in r :: t.releases[k] == Release(true, probe(k))
    ensures forall k | k in t.releases :: !t.releases[k].unlinkCalled
    ensures forall k | k in t.releases :: t.releases[k].error.None? <==> KeepingSucceeds(probe(k))
  {
    TeardownRun(map[], map k | k in r :: Release(true, probe(k)))
  }
}
